=== FILE: README.md ===
# Kusanagi Nene bot: ledger and affection state machine

This project models the stateful core of the Kusanagi Nene Discord bot (`main.py`).
It takes the logic out of the command handlers and writes it as pure transitions
over an explicit, immutable state:

- **Nenebucks ledger** (`Nenebucks`, `Coinflip`): a map from member id to coin
  balance. `make_acc` opens an account holding 10 coins. `pay` moves coins
  between two registered members. `coinflip` stakes a bet and settles it against
  a coin outcome. `Total`, the sum of all balances, lets the model state
  conservation.
- **Affection meter** (`Affection`): level, experience and the threshold that
  fills a level. `cuddle`, `kiss`, `hug` and `headpat` add a random gain once
  their cooldown has elapsed. `compute_if_full` performs at most one level-up
  and scales the threshold by 5/4, which the model computes exactly as a `real`.
  Every use of `cuddle`, `hug` and `headpat`, and every kiss aimed at Nene or at
  nobody, stamps its timestamp, whether or not it earned anything. A kiss aimed at
  a member stamps nothing.
- **Birthday reply** (`Birthday`): which reply the `birthday` command chooses.
  This depends on whom the command mentions, today's "MM-DD" date and the
  optional day count.
- **Bot** (`Bot`): the state-changing commands composed into one `Step` over the
  combined state, with an invariant kept by every history that has no negative
  payments.

The clock reading, the random experience gain and the coin outcome are
parameters.

## Model

| member | source | states |
|---|---|---|
| Nenebucks.MakeAcc | main.py:428-434 | An unregistered id is opened with exactly 10 coins. A registered id keeps its balance. The set of registered ids gains only this id, and every other balance is unchanged. |
| Nenebucks.MakeAccIdempotent | main.py:429-434 | Running `make_acc` twice leaves the same ledger as running it once. |
| Nenebucks.MakeAccTotal | main.py:429-434 | Opening a new account adds exactly 10 to the sum of balances. A repeated `make_acc` adds nothing. |
| Nenebucks.MakeAccKeepsSolvent | main.py:434 | Opening an account keeps every balance non-negative. |
| Nenebucks.Pay | main.py:483-502 | The transfer happens if and only if the sender is registered, a recipient is mentioned and registered, the two are distinct, and the amount does not exceed the sender's balance. Then the sender loses the amount, the recipient gains it, and no other balance or registration changes. Otherwise the ledger is unchanged. Each refusal outcome holds exactly under its own reason, checked in the source's order. A missing mention fails when `member.id` is read (main.py:488). |
| Nenebucks.PayRejectionKeepsLedger | main.py:484-499 | Each refusal condition leaves the ledger as it was and reports no payment: sender unregistered, no recipient, recipient unregistered, paying oneself, or an amount above the balance. |
| Nenebucks.PayConserves | main.py:501-502 | No payment changes the sum of all balances. |
| Nenebucks.PayNeverOverdrawsSender | main.py:497-502 | After an accepted payment, the sender's balance is non-negative. |
| Nenebucks.NegativePayOverdrawsRecipient | main.py:497-502 | The guard accepts a payment of -5 from a member holding 10 to a member holding 0. The sender ends with 15 and the recipient with -5. |
| Nenebucks.PayChecked | main.py:497-502 | Adding a positivity check, a payment succeeds exactly when the original guard holds and the amount is positive. For positive amounts it agrees with `pay`. |
| Nenebucks.PayCheckedKeepsSolvent | main.py:497-502 | With the positivity check, a payment keeps every balance non-negative and the sum unchanged. |
| Coinflip.Lower | main.py:389-392 | Lower-casing keeps the length and maps each character on its own. |
| Coinflip.LowerIsLetter | main.py:389-392 | A string lower-cases to "h" exactly when it is "h" or "H", and likewise for "t" and "T". |
| Coinflip.NormalisePick | main.py:389-392 | "h" or "H" becomes "heads", and "t" or "T" becomes "tails". Any other pick is kept unchanged, case included. |
| Coinflip.Wins | main.py:415 | A flip is won when the normalised pick equals the coin's name. Only the six picks h, H, heads, t, T and tails can ever win. |
| Coinflip.WinningPicks | main.py:389-415 | Heads wins exactly for the picks "h", "H" and "heads". Tails wins exactly for "t", "T" and "tails". |
| Coinflip.CapitalisedWordNeverWins | main.py:389-392 | The spelled-out picks are case sensitive: "Heads" and "Tails" never win. |
| Coinflip.Coinflip | main.py:378-418 | The bet is settled if and only if the player is registered and 0 < bet <= balance. A win leaves balance + bet and a loss leaves balance - bet. Every other case leaves the ledger unchanged. A non-negative balance stays non-negative. |
| Coinflip.CoinflipTotal | main.py:385-418 | A flip changes the sum of balances by +bet on a win, by -bet on a loss, and otherwise not at all. |
| Coinflip.CoinflipKeepsSolvent | main.py:385-418 | A flip keeps every balance non-negative. |
| Affection.ComputeIfFull | main.py:76-81 | At most one level is gained. A level-up happens if and only if experience reaches the threshold. It resets the experience to 0 and multiplies the threshold by 5/4, which strictly raises a positive threshold. Otherwise nothing changes. |
| Affection.Stamp | main.py:179 | Records the new last-use time of one command and keeps the other commands' times. The other commands stamp the same way at main.py:205, 248 and 302. |
| Affection.StampStartsCooldown | main.py:85-86 | Right after a use is stamped, that command is on cooldown, because every cooldown is positive. Whether any other command is ready is unaffected. |
| Affection.CooldownStaysReady | main.py:85-86 | Once a cooldown has elapsed, it stays elapsed at every later clock reading while no new use is stamped. |
| Affection.Interact | main.py:172-179 | Inside the cooldown the meter is unchanged. Once the cooldown has elapsed, the gain is added. A meter that is then full levels up once, to experience 0 with the threshold scaled by 5/4. The command's timestamp becomes `now` in both cases, and the other timestamps are kept. |
| Affection.UseDuringCooldownRestartsIt | main.py:172-179 | A use inside the cooldown earns nothing and restarts the cooldown: the next use is rewarded only when a full cooldown has passed since that use. |
| Affection.KissCommand | main.py:191-227 | A kiss aimed at a member changes nothing, so it neither earns experience nor restarts the kiss cooldown. A kiss at Nene or at nobody sets the kiss stamp to `now`. Other stamps are never touched. The meter changes only for a kiss at Nene or at nobody, at least 120 seconds after the last stamped kiss. Such a kiss then adds the gain, or levels up to experience 0 with the threshold scaled by 5/4. |
| Affection.InitialValid | main.py:35-37 | The initial meter (level 1, 0 experience, threshold 50) satisfies the meter invariant. |
| Affection.InteractKeepsValid | main.py:76-81 | Every use keeps the meter invariant. The threshold stays 50 * (5/4)^(level-1), and experience stays below the threshold, so one level-up per use is always enough. |
| Affection.ThresholdGrowsWithLevel | main.py:78-81 | Of two valid meters, the one at the higher level has the strictly larger threshold. |
| Affection.Run | main.py:172-179 | Over any sequence of uses the level never decreases, and it rises by at most one per use. |
| Affection.RunKeepsValid | main.py:76-81 | Any sequence of uses keeps the meter invariant. |
| Birthday.DaysReply | main.py:334-342 | Every day count gets a reply. A missing or zero count gives "happy birthday today", 1 gives "tomorrow", 2..365 gives the reminder, and any other count gives disbelief. Each of these holds in both directions. |
| Birthday.DayCasesPartition | main.py:334-342 | Every day count, present or absent, falls in exactly one of the four cases. |
| Birthday.BirthdayCommand | main.py:319-342 | Mentioning nobody or Nene gives thanks exactly on "07-20" and a correction otherwise. Mentioning oneself gives a direct wish. Mentioning another member gives the day-count reply. The command always replies. |
| Bot.Step | main.py:163-502 | Ledger commands leave the meter and timestamps untouched, and affection commands leave the ledger untouched. The level never drops and rises by at most one. |
| Bot.StepKeepsInvariant | main.py:163-502 | Every command except a negative payment keeps every balance non-negative and the meter invariant. |
| Bot.StepTotal | main.py:378-502 | Opening a new account mints 10, and a repeated `make_acc` keeps the sum. A won flip mints the bet and a lost flip removes it. Payments, refused flips and affection commands keep the sum. |
| Bot.Replay | main.py:163-502 | Over any sequence of commands, the level rises by at most one per command and never falls. |
| Bot.ReplayKeepsInvariant | main.py:163-502 | Any history without negative payments keeps the invariant. |
| Bot.StartInvariant | main.py:33-37 | The start state (empty ledger, level 1, 0 experience, threshold 50) satisfies the invariant. |

## Left out

- Discord plumbing is not modelled. This covers event handlers, message and embed sending, replies, the guild allow-list, `showcmds` and response text. It also covers the read-only commands `stats`, `my_acc`, `slap`, `bite`, `ily` and `antiraid`, which change no state.
- `on_member_join`'s kick counter and the `refresh_threshold` thread are left out. They are a periodic reset done concurrently.
- JSON persistence (`save_*`, `load_*`), `autosave_loop`, `sleep` and the signal handlers are left out, because they are file I/O and process shutdown. The meter invariant is therefore proved from the start state, not from whatever a saved file holds.
- Clock, randomness and coin: `time.time()`, `random.randint` and `random.choice` are parameters. The XP handlers read the clock twice, once for the stamp and once inside `cooldown_ready`. The model uses one reading `now` for both.
- Each command is modelled as atomic, so interleavings at its `await` points are not modelled. `coinflip` writes the debited stake, then awaits its reply and a two-second pause (main.py:400-402), and on a win writes `balance + bet` from the balance it read first (main.py:418). A change to the player's own balance made during that gap is lost on a win. After a loss nothing is overwritten, and other members' balances are never overwritten. `make_acc` has a similar gap: it checks for an account (main.py:429), awaits a reply (main.py:432) and then writes 10 (main.py:434). An account opened or credited in between is reset to 10.
- Coinflip.Lower: only the ASCII letters A-Z are lower-cased. Python's full Unicode lower-casing is not modelled.
- Affection.ComputeIfFull: the threshold is an exact real. The floating-point rounding of repeated `*= 1.25` is not modelled.
- Exceptions raised by Discord argument conversion are not modelled: a non-integer `bet`, `amount` or `days` and an unknown member. Such a command never reaches the modelled logic. The one exception that is modelled is `pay` with no member mentioned. It reads `member.id` before its own `None` check, so it fails with the ledger unchanged (`RecipientMissing`), and that `None` branch is unreachable.
- Bot.StepKeepsInvariant: negative payments are excluded, because the code as written lets them drive a recipient's balance below zero (see Findings).

## Findings

| source | as written | input that shows it | evidently intended | confidence | as-written member | corrected member |
|---|---|---|---|---|---|---|
| main.py:497-502 | The only amount check is `amount > balance`, so a zero or negative amount is accepted and moves coins from the recipient to the sender. | Member 1 holds 10 and member 2 holds 0. Member 1 pays member 2 an amount of -5. Member 1 ends with 15 and member 2 with -5. | Refuse amounts that are not positive. | medium, not executed | Nenebucks.NegativePayOverdrawsRecipient | Nenebucks.PayCheckedKeepsSolvent |

`Bot.Step` follows the code as written and uses `Nenebucks.Pay`. `Nenebucks.PayChecked` is the corrected transfer, and it agrees with `Pay` on every positive amount.

=== FILE: affection.dfy ===
/**
  Nene's affection meter: a level, the experience earned towards the next level and
  the experience a level needs, raised by the `cuddle`, `kiss`, `hug` and `headpat`
  commands once their cooldown has elapsed. The clock reading and the random
  experience gain are passed in.
 */
module Affection {
  import opened Mentions

  /** Level, experience and the experience that fills the current level. The
      threshold is exact: each level-up scales it by 5/4. */
  datatype Progress = Progress(level: int, xp: int, fullXp: real)

  /** Threshold of the first level. */
  const FirstThreshold: real := 50.0

  /** The meter before anything is loaded or earned. */
  const InitialProgress: Progress := Progress(1, 0, FirstThreshold)

  /** `compute_if_full`: a full meter empties, the level goes up by one and the next
      level needs a quarter more experience. */
  function ComputeIfFull(p: Progress): (r: Progress)
    ensures r.level == p.level || r.level == p.level + 1
    ensures r.level == p.level + 1 <==> p.xp as real >= p.fullXp
    ensures r.level == p.level ==> r == p
    ensures r.level == p.level + 1 ==> r.xp == 0 && 4.0 * r.fullXp == 5.0 * p.fullXp
    ensures p.fullXp > 0.0 && r.level == p.level + 1 ==> r.fullXp > p.fullXp
  {
    if p.xp as real >= p.fullXp then Progress(p.level + 1, 0, p.fullXp * 1.25) else p
  }

  // ---------------------------------------------------------------------------
  // Cooldowns

  /** The commands that earn experience. */
  datatype Interaction = Cuddle | Kiss | Hug | Headpat

  /** Seconds that must pass between two rewarded uses of a command. */
  function Cooldown(a: Interaction): int
  {
    match a
    case Cuddle => 30
    case Kiss => 120
    case Hug => 15
    case Headpat => 30
  }

  /** Bounds of the random experience gain of a command, both inclusive. */
  function MinGain(a: Interaction): int
  {
    match a
    case Cuddle => 3
    case Kiss => 5
    case Hug => 4
    case Headpat => 2
  }

  function MaxGain(a: Interaction): int
  {
    match a
    case Cuddle => 5
    case Kiss => 7
    case Hug => 6
    case Headpat => 4
  }

  /** Clock reading of the last use of each command. */
  datatype LastUse = LastUse(cuddle: real, kiss: real, hug: real, headpat: real)

  /** No command used yet: every timestamp is the epoch. */
  const NeverUsed: LastUse := LastUse(0.0, 0.0, 0.0, 0.0)

  function Last(t: LastUse, a: Interaction): real
  {
    match a
    case Cuddle => t.cuddle
    case Kiss => t.kiss
    case Hug => t.hug
    case Headpat => t.headpat
  }

  /** Record `now` as the last use of `a`, keeping the other commands' timestamps. */
  function Stamp(t: LastUse, a: Interaction, now: real): (r: LastUse)
    ensures Last(r, a) == now
    ensures forall b :: b != a ==> Last(r, b) == Last(t, b)
  {
    match a
    case Cuddle => t.(cuddle := now)
    case Kiss => t.(kiss := now)
    case Hug => t.(hug := now)
    case Headpat => t.(headpat := now)
  }

  /** `cooldown_ready`: at least `cooldown` seconds have passed since `last`. */
  predicate CooldownReady(last: real, cooldown: int, now: real)
  {
    now - last >= cooldown as real
  }

  /** Right after a use, the command is on cooldown: every cooldown is positive. */
  lemma StampStartsCooldown(t: LastUse, a: Interaction, now: real)
    ensures !CooldownReady(Last(Stamp(t, a, now), a), Cooldown(a), now)
    ensures forall b :: b != a ==>
      (CooldownReady(Last(Stamp(t, a, now), b), Cooldown(b), now) <==> CooldownReady(Last(t, b), Cooldown(b), now))
  {
  }

  /** Once a cooldown has elapsed it stays elapsed while no new use is stamped. */
  lemma CooldownStaysReady(last: real, cooldown: int, now: real, later: real)
    requires CooldownReady(last, cooldown, now)
    requires now <= later
    ensures CooldownReady(last, cooldown, later)
  {
  }

  /** The affection meter together with the command timestamps. */
  datatype State = State(progress: Progress, last: LastUse)

  const Start: State := State(InitialProgress, NeverUsed)

  /** The shared body of `cuddle`, `kiss`, `hug` and `headpat`: when the cooldown has
      elapsed, add the drawn gain and level up if full; stamp the use either way. */
  function Interact(s: State, a: Interaction, now: real, gain: int): (r: State)
    requires MinGain(a) <= gain <= MaxGain(a)
    ensures Last(r.last, a) == now
    ensures forall b :: b != a ==> Last(r.last, b) == Last(s.last, b)
    ensures !CooldownReady(Last(s.last, a), Cooldown(a), now) ==> r.progress == s.progress
    ensures CooldownReady(Last(s.last, a), Cooldown(a), now) && ((s.progress.xp + gain) as real) < s.progress.fullXp
      ==> r.progress == s.progress.(xp := s.progress.xp + gain)
    ensures CooldownReady(Last(s.last, a), Cooldown(a), now) && ((s.progress.xp + gain) as real) >= s.progress.fullXp
      ==> r.progress == Progress(s.progress.level + 1, 0, s.progress.fullXp * 5.0 / 4.0)
    ensures s.progress.level <= r.progress.level <= s.progress.level + 1
  {
    var progress :=
      if CooldownReady(Last(s.last, a), Cooldown(a), now)
      then ComputeIfFull(s.progress.(xp := s.progress.xp + gain))
      else s.progress;
    State(progress, Stamp(s.last, a, now))
  }

  /** A second use inside the cooldown earns nothing and restarts the cooldown: the
      next use is rewarded only once the cooldown has passed since the second use. */
  lemma UseDuringCooldownRestartsIt(s: State, a: Interaction, t1: real, g1: int, t2: real, g2: int, t3: real)
    requires MinGain(a) <= g1 <= MaxGain(a) && MinGain(a) <= g2 <= MaxGain(a)
    requires t2 - t1 < Cooldown(a) as real
    ensures var s1 := Interact(s, a, t1, g1);
      var s2 := Interact(s1, a, t2, g2);
      && s2.progress == s1.progress
      && (CooldownReady(Last(s2.last, a), Cooldown(a), t3) <==> t3 - t2 >= Cooldown(a) as real)
  {
  }

  /** `kiss`: only a kiss aimed at Nene (or at nobody) earns experience and stamps the
      cooldown; a kiss aimed at a member changes nothing. */
  function KissCommand(s: State, target: Mention, now: real, gain: int): (r: State)
    requires MinGain(Kiss) <= gain <= MaxGain(Kiss)
    ensures target == Author || target == OtherMember ==> r == s
    ensures target == NoMember || target == Nene ==> Last(r.last, Kiss) == now
    ensures forall b :: b != Kiss ==> Last(r.last, b) == Last(s.last, b)
    ensures r.progress != s.progress ==>
      (target == NoMember || target == Nene) && Last(s.last, Kiss) + 120.0 <= now
    ensures (target == NoMember || target == Nene) && Last(s.last, Kiss) + 120.0 <= now ==>
      if ((s.progress.xp + gain) as real) < s.progress.fullXp
      then r.progress == s.progress.(xp := s.progress.xp + gain)
      else r.progress == Progress(s.progress.level + 1, 0, s.progress.fullXp * 5.0 / 4.0)
  {
    match target
    case NoMember => Interact(s, Kiss, now, gain)
    case Nene => Interact(s, Kiss, now, gain)
    case Author => s
    case OtherMember => s
  }

  // ---------------------------------------------------------------------------
  // Invariant of the meter

  /** `q` raised to the power `n`. */
  function Pow(q: real, n: nat): real
  {
    if n == 0 then 1.0 else q * Pow(q, n - 1)
  }

  lemma {:induction false} PowAtLeastOne(n: nat)
    ensures Pow(1.25, n) >= 1.0
  {
    if n > 0 {
      PowAtLeastOne(n - 1);
    }
  }

  lemma {:induction false} PowIncreasing(i: nat, j: nat)
    requires i < j
    ensures Pow(1.25, i) < Pow(1.25, j)
    decreases j
  {
    PowAtLeastOne(j - 1);
    if i < j - 1 {
      PowIncreasing(i, j - 1);
    }
  }

  /** The meter as it can be reached from the start: the threshold is the first one
      scaled once per level gained, and the experience is below it. */
  ghost predicate Valid(p: Progress)
  {
    && p.level >= 1
    && p.fullXp == FirstThreshold * Pow(1.25, p.level - 1)
    && 0 <= p.xp
    && p.xp as real < p.fullXp
  }

  lemma InitialValid()
    ensures Valid(InitialProgress)
  {
  }

  /** Every rewarded or unrewarded use keeps the meter valid; in particular a single
      level-up per use always leaves the meter below its threshold. */
  lemma InteractKeepsValid(s: State, a: Interaction, now: real, gain: int)
    requires MinGain(a) <= gain <= MaxGain(a)
    requires Valid(s.progress)
    ensures Valid(Interact(s, a, now, gain).progress)
  {
    var p := s.progress;
    PowAtLeastOne(p.level - 1);
    var r := Interact(s, a, now, gain).progress;
    if r.level == p.level + 1 {
      assert Pow(1.25, r.level - 1) == 1.25 * Pow(1.25, p.level - 1);
    }
  }

  /** A higher level always has a strictly larger threshold. */
  lemma ThresholdGrowsWithLevel(p: Progress, q: Progress)
    requires Valid(p) && Valid(q)
    requires p.level < q.level
    ensures p.fullXp < q.fullXp
  {
    PowIncreasing(p.level - 1, q.level - 1);
  }

  // ---------------------------------------------------------------------------
  // Sequences of uses

  /** One use of a command: which command, the clock reading and the drawn gain. */
  datatype Use = Use(action: Interaction, now: real, gain: int)

  predicate GainsInRange(uses: seq<Use>)
  {
    forall i :: 0 <= i < |uses| ==> MinGain(uses[i].action) <= uses[i].gain <= MaxGain(uses[i].action)
  }

  /** The meter after a sequence of uses, in order; at most one level per use. */
  function Run(s: State, uses: seq<Use>): (r: State)
    requires GainsInRange(uses)
    ensures s.progress.level <= r.progress.level <= s.progress.level + |uses|
    decreases |uses|
  {
    if uses == [] then s
    else Run(Interact(s, uses[0].action, uses[0].now, uses[0].gain), uses[1..])
  }

  /** Any sequence of uses keeps the meter valid. */
  lemma {:induction false} RunKeepsValid(s: State, uses: seq<Use>)
    requires GainsInRange(uses)
    requires Valid(s.progress)
    ensures Valid(Run(s, uses).progress)
    decreases |uses|
  {
    if uses != [] {
      InteractKeepsValid(s, uses[0].action, uses[0].now, uses[0].gain);
      RunKeepsValid(Interact(s, uses[0].action, uses[0].now, uses[0].gain), uses[1..]);
    }
  }
}

=== FILE: birthday.dfy ===
/**
  The `birthday` command's choice of reply. The calendar date is passed in as the
  "MM-DD" string the command formats from today's date.
 */
module Birthday {
  import opened Wrappers
  import opened Mentions

  /** The replies the command can choose. `Silent` stands for running past every branch
      of the day-count chain without replying. */
  datatype Reply =
    | ThanksItIsMyBirthday
    | NotMyBirthday
    | HappyBirthdayAuthor
    | HappyBirthdayToday
    | Tomorrow
    | Reminder
    | Disbelief
    | Silent

  /** Nene's own birthday, as "MM-DD". */
  const NeneBirthday: string := "07-20"

  /** The day-count cases, each stated on its own. */
  predicate TodayCase(days: Option<int>) { days.None? || days.value == 0 }
  predicate TomorrowCase(days: Option<int>) { days.Some? && days.value == 1 }
  predicate ReminderCase(days: Option<int>) { days.Some? && 2 <= days.value <= 365 }
  predicate DisbeliefCase(days: Option<int>) { days.Some? && (days.value > 365 || days.value < 0) }

  /** The reply for another member's birthday, in the order the command tests it:
      a missing or zero count first, then 2..365, then out of range, then exactly 1. */
  function DaysReply(days: Option<int>): (r: Reply)
    ensures r != Silent
    ensures r == HappyBirthdayToday <==> TodayCase(days)
    ensures r == Tomorrow <==> TomorrowCase(days)
    ensures r == Reminder <==> ReminderCase(days)
    ensures r == Disbelief <==> DisbeliefCase(days)
  {
    if days.None? || days.value == 0 then HappyBirthdayToday
    else if days.value > 1 && days.value <= 365 then Reminder
    else if days.value > 365 || days.value < 0 then Disbelief
    else if days.value == 1 then Tomorrow
    else Silent
  }

  /** Every day count, present or not, falls in exactly one case. */
  lemma DayCasesPartition(days: Option<int>)
    ensures (if TodayCase(days) then 1 else 0) + (if TomorrowCase(days) then 1 else 0)
          + (if ReminderCase(days) then 1 else 0) + (if DisbeliefCase(days) then 1 else 0) == 1
  {
  }

  /** `birthday`: thank the author on Nene's birthday, correct them on other days, wish
      the author directly, or answer about another member from the day count. */
  function BirthdayCommand(target: Mention, today: string, days: Option<int>): (r: Reply)
    ensures target == NoMember || target == Nene ==>
      (r == ThanksItIsMyBirthday <==> today == NeneBirthday) && (r == ThanksItIsMyBirthday || r == NotMyBirthday)
    ensures target == Author ==> r == HappyBirthdayAuthor
    ensures target == OtherMember ==> r == DaysReply(days)
    ensures r != Silent
  {
    match target
    case NoMember => if today == NeneBirthday then ThanksItIsMyBirthday else NotMyBirthday
    case Nene => if today == NeneBirthday then ThanksItIsMyBirthday else NotMyBirthday
    case Author => HappyBirthdayAuthor
    case OtherMember => DaysReply(days)
  }
}

=== FILE: bot.dfy ===
/**
  The bot's mutable globals gathered into one immutable state: the Nenebucks ledger
  and the affection meter with its command timestamps. Each state-changing command
  is one transition; commands that only reply leave the state alone.
 */
module Bot {
  import opened Wrappers
  import opened Mentions
  import opened Nenebucks
  import C = Coinflip
  import A = Affection

  datatype State = State(accounts: Accounts, mood: A.State)

  /** The state at start-up when nothing has been saved. */
  const Start: State := State(map[], A.Start)

  /** A state-changing command, with the clock reading, the random draw and the coin
      outcome it consumes given as arguments. */
  datatype Command =
    | MakeAccCmd(user: UserId)
    | PayCmd(sender: UserId, recipient: Option<UserId>, amount: int)
    | CoinflipCmd(player: UserId, bet: int, pick: string, coin: C.Coin)
    | CuddleCmd(now: real, gain: int)
    | KissCmd(target: Mention, now: real, gain: int)
    | HugCmd(now: real, gain: int)
    | HeadpatCmd(now: real, gain: int)

  predicate IsLedgerCommand(cmd: Command)
  {
    cmd.MakeAccCmd? || cmd.PayCmd? || cmd.CoinflipCmd?
  }

  /** The random experience gain lies in the range the command draws from. */
  predicate WellFormed(cmd: Command)
  {
    match cmd
    case CuddleCmd(_, g) => A.MinGain(A.Cuddle) <= g <= A.MaxGain(A.Cuddle)
    case KissCmd(_, _, g) => A.MinGain(A.Kiss) <= g <= A.MaxGain(A.Kiss)
    case HugCmd(_, g) => A.MinGain(A.Hug) <= g <= A.MaxGain(A.Hug)
    case HeadpatCmd(_, g) => A.MinGain(A.Headpat) <= g <= A.MaxGain(A.Headpat)
    case _ => true
  }

  /** One command, run to completion. Ledger commands touch only the ledger and
      affection commands only the meter. */
  function Step(s: State, cmd: Command): (r: State)
    requires WellFormed(cmd)
    ensures IsLedgerCommand(cmd) ==> r.mood == s.mood
    ensures !IsLedgerCommand(cmd) ==> r.accounts == s.accounts
    ensures s.mood.progress.level <= r.mood.progress.level <= s.mood.progress.level + 1
  {
    match cmd
    case MakeAccCmd(u) => s.(accounts := MakeAcc(s.accounts, u))
    case PayCmd(from, to, amount) => s.(accounts := Pay(s.accounts, from, to, amount).accounts)
    case CoinflipCmd(u, bet, pick, coin) => s.(accounts := C.Coinflip(s.accounts, u, bet, pick, coin).accounts)
    case CuddleCmd(now, g) => s.(mood := A.Interact(s.mood, A.Cuddle, now, g))
    case KissCmd(target, now, g) => s.(mood := A.KissCommand(s.mood, target, now, g))
    case HugCmd(now, g) => s.(mood := A.Interact(s.mood, A.Hug, now, g))
    case HeadpatCmd(now, g) => s.(mood := A.Interact(s.mood, A.Headpat, now, g))
  }

  /** Every balance non-negative and the meter reachable from the start. */
  ghost predicate Invariant(s: State)
  {
    Solvent(s.accounts) && A.Valid(s.mood.progress)
  }

  /** A payment of a negative amount, the one command that can break solvency. */
  predicate NegativePayment(cmd: Command)
  {
    cmd.PayCmd? && cmd.amount < 0
  }

  /** Every command except a negative payment keeps the invariant. */
  lemma StepKeepsInvariant(s: State, cmd: Command)
    requires WellFormed(cmd)
    requires Invariant(s)
    requires !NegativePayment(cmd)
    ensures Invariant(Step(s, cmd))
  {
    match cmd
    case MakeAccCmd(u) =>
    case PayCmd(from, to, amount) =>
    case CoinflipCmd(u, bet, pick, coin) =>
      C.CoinflipKeepsSolvent(s.accounts, u, bet, pick, coin);
    case CuddleCmd(now, g) =>
      A.InteractKeepsValid(s.mood, A.Cuddle, now, g);
    case KissCmd(target, now, g) =>
      A.InteractKeepsValid(s.mood, A.Kiss, now, g);
    case HugCmd(now, g) =>
      A.InteractKeepsValid(s.mood, A.Hug, now, g);
    case HeadpatCmd(now, g) =>
      A.InteractKeepsValid(s.mood, A.Headpat, now, g);
  }

  /** How each command changes the sum of balances: opening a new account mints the
      starting balance, a won flip mints the bet, a lost flip removes it, and every
      other command keeps the sum. */
  lemma StepTotal(s: State, cmd: Command)
    requires WellFormed(cmd)
    ensures cmd.PayCmd? || !IsLedgerCommand(cmd) ==> Total(Step(s, cmd).accounts) == Total(s.accounts)
    ensures cmd.MakeAccCmd? && cmd.user !in s.accounts ==>
      Total(Step(s, cmd).accounts) == Total(s.accounts) + StartingBalance
    ensures cmd.MakeAccCmd? && cmd.user in s.accounts ==>
      Total(Step(s, cmd).accounts) == Total(s.accounts)
    ensures cmd.CoinflipCmd? ==>
      var outcome := C.Coinflip(s.accounts, cmd.player, cmd.bet, cmd.pick, cmd.coin).outcome;
      var d := Total(Step(s, cmd).accounts) - Total(s.accounts);
      d == (if outcome == C.Won then cmd.bet else if outcome == C.Lost then -cmd.bet else 0)
  {
    match cmd
    case MakeAccCmd(u) => MakeAccTotal(s.accounts, u);
    case PayCmd(from, to, amount) => PayConserves(s.accounts, from, to, amount);
    case CoinflipCmd(u, bet, pick, coin) => C.CoinflipTotal(s.accounts, u, bet, pick, coin);
    case _ =>
  }

  predicate AllWellFormed(cmds: seq<Command>)
  {
    forall i :: 0 <= i < |cmds| ==> WellFormed(cmds[i])
  }

  /** The state after a sequence of commands, in order. */
  function Replay(s: State, cmds: seq<Command>): (r: State)
    requires AllWellFormed(cmds)
    ensures s.mood.progress.level <= r.mood.progress.level <= s.mood.progress.level + |cmds|
    decreases |cmds|
  {
    if cmds == [] then s else Replay(Step(s, cmds[0]), cmds[1..])
  }

  /** From the start, any history without negative payments keeps every balance
      non-negative and the meter valid. */
  lemma {:induction false} ReplayKeepsInvariant(s: State, cmds: seq<Command>)
    requires AllWellFormed(cmds)
    requires Invariant(s)
    requires forall i :: 0 <= i < |cmds| ==> !NegativePayment(cmds[i])
    ensures Invariant(Replay(s, cmds))
    decreases |cmds|
  {
    if cmds != [] {
      StepKeepsInvariant(s, cmds[0]);
      ReplayKeepsInvariant(Step(s, cmds[0]), cmds[1..]);
    }
  }

  /** The start state satisfies the invariant. */
  lemma StartInvariant()
    ensures Invariant(Start)
  {
    A.InitialValid();
  }
}

=== FILE: coinflip.dfy ===
/**
  The `coinflip` command: the player's pick is normalised, the coin outcome is
  passed in, and the stake is settled against the Nenebucks ledger.
 */
module Coinflip {
  import opened Nenebucks

  datatype Coin = Heads | Tails

  /** How a coin outcome is spelled when compared with the pick. */
  function CoinName(c: Coin): string
  {
    match c
    case Heads => "heads"
    case Tails => "tails"
  }

  /** Lower-casing of one character; only the ASCII letters A-Z are mapped. */
  function LowerChar(c: char): (r: char)
    ensures 'A' <= c <= 'Z' ==> 'a' <= r <= 'z'
    ensures !('A' <= c <= 'Z') ==> r == c
  {
    if 'A' <= c <= 'Z' then (c as int - 'A' as int + 'a' as int) as char else c
  }

  /** Lower-casing of a string, character by character. */
  function Lower(s: string): (r: string)
    ensures |r| == |s|
    ensures forall i :: 0 <= i < |s| ==> r[i] == LowerChar(s[i])
  {
    if s == [] then [] else [LowerChar(s[0])] + Lower(s[1..])
  }

  /** Exactly the one-letter strings "x" and "X" lower-case to "x", for x in {h, t}. */
  lemma LowerIsLetter(s: string, x: char, upper: char)
    requires (x == 'h' && upper == 'H') || (x == 't' && upper == 'T')
    ensures Lower(s) == [x] <==> s == [x] || s == [upper]
  {
    if Lower(s) == [x] {
      assert |s| == 1 && LowerChar(s[0]) == x;
    }
    if s == [x] || s == [upper] {
      assert Lower(s)[0] == x;
    }
  }

  /** The pick after normalisation: a single "h" or "t" in either case is spelled out;
      anything else is kept exactly as typed. */
  function NormalisePick(pick: string): (r: string)
    ensures pick == "h" || pick == "H" ==> r == "heads"
    ensures pick == "t" || pick == "T" ==> r == "tails"
    ensures pick !in {"h", "H", "t", "T"} ==> r == pick
  {
    LowerIsLetter(pick, 'h', 'H');
    LowerIsLetter(pick, 't', 'T');
    if Lower(pick) == "h" then "heads"
    else if Lower(pick) == "t" then "tails"
    else pick
  }

  /** The flip is won when the normalised pick names the coin outcome; only six
      picks can ever win. */
  predicate Wins(pick: string, coin: Coin)
    ensures Wins(pick, coin) ==> pick in {"h", "H", "heads", "t", "T", "tails"}
  {
    NormalisePick(pick) == CoinName(coin)
  }

  /** The picks that win, listed: one letter in either case, or the full lower-case word. */
  lemma WinningPicks(pick: string, coin: Coin)
    ensures Wins(pick, Heads) <==> pick in {"h", "H", "heads"}
    ensures Wins(pick, Tails) <==> pick in {"t", "T", "tails"}
  {
  }

  /** A spelled-out pick is case sensitive: "Heads" never wins. */
  lemma CapitalisedWordNeverWins(coin: Coin)
    ensures !Wins("Heads", coin)
    ensures !Wins("Tails", coin)
  {
    WinningPicks("Heads", coin);
    WinningPicks("Tails", coin);
  }

  /** How a flip ended: no account, stake refused, won or lost. */
  datatype FlipOutcome = NoAccount | Declined | Won | Lost

  datatype Flip = Flip(accounts: Accounts, outcome: FlipOutcome)

  /** `coinflip`: a missing account counts as a balance of 0; a nonzero balance covering a
      positive bet is staked, and a win credits twice the bet on top of the debited balance. */
  function Coinflip(m: Accounts, user: UserId, bet: int, pick: string, coin: Coin): (r: Flip)
    ensures (r.outcome == Won || r.outcome == Lost) <==> user in m && 0 < bet <= m[user]
    ensures r.outcome == NoAccount <==> user !in m
    ensures r.outcome == Won ==> Wins(pick, coin) && r.accounts == m[user := m[user] + bet]
    ensures r.outcome == Lost ==> !Wins(pick, coin) && r.accounts == m[user := m[user] - bet]
    ensures r.outcome == NoAccount || r.outcome == Declined ==> r.accounts == m
    ensures user in m && m[user] >= 0 ==> user in r.accounts && r.accounts[user] >= 0
  {
    var money := if user in m then m[user] else 0;
    if money != 0 && money >= bet && bet > 0 then
      var staked := m[user := money - bet];
      if Wins(pick, coin) then Flip(staked[user := (money - bet) + bet * 2], Won)
      else Flip(staked, Lost)
    else if user in m then Flip(m, Declined)
    else Flip(m, NoAccount)
  }

  /** A flip moves exactly the bet between the player and the house. */
  lemma CoinflipTotal(m: Accounts, user: UserId, bet: int, pick: string, coin: Coin)
    ensures var r := Coinflip(m, user, bet, pick, coin);
      Total(r.accounts) == Total(m) + (if r.outcome == Won then bet else if r.outcome == Lost then -bet else 0)
  {
    var r := Coinflip(m, user, bet, pick, coin);
    if r.outcome == Won || r.outcome == Lost {
      TotalUpdate(m, user, r.accounts[user]);
    }
  }

  /** A flip keeps every balance non-negative. */
  lemma CoinflipKeepsSolvent(m: Accounts, user: UserId, bet: int, pick: string, coin: Coin)
    requires Solvent(m)
    ensures Solvent(Coinflip(m, user, bet, pick, coin).accounts)
  {
  }
}

=== FILE: mention.dfy ===
/** Whom a command mentions, shared by the commands that take an optional member. */
module Mentions {

  /** No member, Nene herself, the command's author, or another member. */
  datatype Mention = NoMember | Nene | Author | OtherMember
}

=== FILE: nenebucks.dfy ===
/**
  The Nenebucks ledger: a map from a member's id to their coin balance, with the
  `make_acc` and `pay` commands as pure transitions over it. `Total` sums every
  balance, so that conservation can be stated.
 */
module Nenebucks {
  import opened Wrappers

  type UserId = int

  /** Member id to balance; an id is registered exactly when it is a key. */
  type Accounts = map<UserId, int>

  /** Coins credited to a freshly opened account. */
  const StartingBalance: int := 10

  /** Every registered balance is non-negative. */
  ghost predicate Solvent(m: Accounts)
  {
    forall u :: u in m ==> m[u] >= 0
  }

  /** A set of ids is empty or has a member. */
  lemma EmptyOrHasMember(keys: set<UserId>)
    ensures keys == {} || exists e :: e in keys
  {
    if forall e :: e !in keys {
      assert keys == {};
    }
  }

  /** The least id in a non-empty set of ids. */
  ghost function MinKey(keys: set<UserId>): (k: UserId)
    requires keys != {}
    ensures k in keys
    ensures forall j :: j in keys ==> k <= j
    decreases keys
  {
    EmptyOrHasMember(keys);
    var x :| x in keys;
    if keys == {x} then x
    else
      var y := MinKey(keys - {x});
      assert forall j :: j in keys ==> j == x || j in keys - {x};
      if x <= y then x else y
  }

  /** The sum of all balances, taken in increasing order of id. */
  ghost function Total(m: Accounts): int
    decreases m.Keys
  {
    if m == map[] then 0
    else
      var k := MinKey(m.Keys);
      m[k] + Total(m - {k})
  }

  /** Any registered balance can be split off the total, whatever the order of summation. */
  lemma {:induction false} TotalRemove(m: Accounts, k: UserId)
    requires k in m
    ensures Total(m) == m[k] + Total(m - {k})
    decreases m.Keys
  {
    var least := MinKey(m.Keys);
    if k != least {
      TotalRemove(m - {least}, k);
      TotalRemove(m - {k}, least);
      assert (m - {least}) - {k} == (m - {k}) - {least};
    }
  }

  /** Overwriting a registered balance changes the total by the difference. */
  lemma TotalUpdate(m: Accounts, k: UserId, v: int)
    requires k in m
    ensures Total(m[k := v]) == Total(m) - m[k] + v
  {
    TotalRemove(m, k);
    TotalRemove(m[k := v], k);
    assert m[k := v] - {k} == m - {k};
  }

  /** Registering a new id adds its balance to the total. */
  lemma TotalInsert(m: Accounts, k: UserId, v: int)
    requires k !in m
    ensures Total(m[k := v]) == Total(m) + v
  {
    TotalRemove(m[k := v], k);
    assert m[k := v] - {k} == m;
  }

  // ---------------------------------------------------------------------------
  // make_acc

  /** `make_acc`: open an account holding the starting balance, unless one exists. */
  function MakeAcc(m: Accounts, user: UserId): (r: Accounts)
    ensures user in r
    ensures user !in m ==> r[user] == StartingBalance
    ensures user in m ==> r[user] == m[user]
    ensures r.Keys == m.Keys + {user}
    ensures forall u :: u in m && u != user ==> r[u] == m[u]
  {
    if user in m then m else m[user := StartingBalance]
  }

  /** Opening an account twice is the same as opening it once. */
  lemma MakeAccIdempotent(m: Accounts, user: UserId)
    ensures MakeAcc(MakeAcc(m, user), user) == MakeAcc(m, user)
  {
  }

  /** `make_acc` mints exactly the starting balance for a new member and nothing otherwise. */
  lemma MakeAccTotal(m: Accounts, user: UserId)
    ensures user !in m ==> Total(MakeAcc(m, user)) == Total(m) + StartingBalance
    ensures user in m ==> Total(MakeAcc(m, user)) == Total(m)
  {
    if user !in m {
      TotalInsert(m, user, StartingBalance);
    }
  }

  /** `make_acc` keeps every balance non-negative. */
  lemma MakeAccKeepsSolvent(m: Accounts, user: UserId)
    requires Solvent(m)
    ensures Solvent(MakeAcc(m, user))
  {
  }

  // ---------------------------------------------------------------------------
  // pay

  /** Why a payment went through or was refused. `RecipientMissing` is the case
      where no member was mentioned: reading its id fails before any check. */
  datatype PayOutcome =
    | Paid
    | SenderUnregistered
    | RecipientMissing
    | RecipientUnregistered
    | SelfPayment
    | InsufficientFunds
    | NonPositiveAmount

  datatype Payment = Payment(accounts: Accounts, outcome: PayOutcome)

  /** The guard under which `pay` transfers coins. */
  predicate PayAccepted(m: Accounts, sender: UserId, recipient: Option<UserId>, amount: int)
  {
    && sender in m
    && recipient.Some?
    && recipient.value in m
    && recipient.value != sender
    && amount <= m[sender]
  }

  /** `pay`: move `amount` coins from the sender to the mentioned member. The checks
      run in the order of the command; the amount is not required to be positive. */
  function Pay(m: Accounts, sender: UserId, recipient: Option<UserId>, amount: int): (r: Payment)
    ensures r.outcome == Paid <==> PayAccepted(m, sender, recipient, amount)
    ensures r.outcome == SenderUnregistered <==> sender !in m
    ensures r.outcome == RecipientMissing <==> sender in m && recipient.None?
    ensures r.outcome == RecipientUnregistered <==> sender in m && recipient.Some? && recipient.value !in m
    ensures r.outcome == SelfPayment <==> sender in m && recipient == Some(sender)
    ensures r.outcome == InsufficientFunds <==>
      sender in m && recipient.Some? && recipient.value in m && recipient.value != sender && amount > m[sender]
    ensures r.outcome != Paid ==> r.accounts == m
    ensures r.outcome != NonPositiveAmount
    ensures r.outcome == Paid ==>
      && r.accounts.Keys == m.Keys
      && r.accounts[sender] == m[sender] - amount
      && r.accounts[recipient.value] == m[recipient.value] + amount
      && forall u :: u in m && u != sender && u != recipient.value ==> r.accounts[u] == m[u]
  {
    if sender !in m then Payment(m, SenderUnregistered)
    else if recipient.None? then Payment(m, RecipientMissing)
    else if recipient.value !in m then Payment(m, RecipientUnregistered)
    else if recipient.value == sender then Payment(m, SelfPayment)
    else if amount > m[sender] then Payment(m, InsufficientFunds)
    else
      var debited := m[sender := m[sender] - amount];
      Payment(debited[recipient.value := debited[recipient.value] + amount], Paid)
  }

  /** Each refusal reason named by the command leaves the ledger as it was. */
  lemma PayRejectionKeepsLedger(m: Accounts, sender: UserId, recipient: Option<UserId>, amount: int)
    requires
      || sender !in m
      || recipient.None?
      || recipient.value !in m
      || recipient.value == sender
      || amount > m[sender]
    ensures Pay(m, sender, recipient, amount).accounts == m
    ensures Pay(m, sender, recipient, amount).outcome != Paid
  {
  }

  /** A payment neither creates nor destroys coins. */
  lemma PayConserves(m: Accounts, sender: UserId, recipient: Option<UserId>, amount: int)
    ensures Total(Pay(m, sender, recipient, amount).accounts) == Total(m)
  {
    if PayAccepted(m, sender, recipient, amount) {
      var to := recipient.value;
      var debited := m[sender := m[sender] - amount];
      var credited := debited[to := debited[to] + amount];
      assert Pay(m, sender, recipient, amount).accounts == credited;
      TotalUpdate(m, sender, m[sender] - amount);
      TotalUpdate(debited, to, debited[to] + amount);
    }
  }

  /** A payment never overdraws the sender: the guard keeps the sender's balance non-negative
      whenever it covers the amount. */
  lemma PayNeverOverdrawsSender(m: Accounts, sender: UserId, recipient: Option<UserId>, amount: int)
    requires Pay(m, sender, recipient, amount).outcome == Paid
    ensures Pay(m, sender, recipient, amount).accounts[sender] >= 0
  {
  }

  /** The guard lets a negative amount through: paying -5 from a solvent ledger takes
      5 coins from the recipient and drives their balance below zero. */
  lemma NegativePayOverdrawsRecipient()
    ensures
      var m := map[1 := 10, 2 := 0];
      var r := Pay(m, 1, Some(2), -5);
      && Solvent(m)
      && r.outcome == Paid
      && r.accounts[1] == 15
      && r.accounts[2] == -5
      && !Solvent(r.accounts)
  {
    var m := map[1 := 10, 2 := 0];
    var r := Pay(m, 1, Some(2), -5);
    assert r.accounts[2] == -5;
  }

  /** `pay` with the evidently intended extra check that the amount is positive. */
  function PayChecked(m: Accounts, sender: UserId, recipient: Option<UserId>, amount: int): (r: Payment)
    ensures amount > 0 ==> r == Pay(m, sender, recipient, amount)
    ensures r.outcome == Paid <==> PayAccepted(m, sender, recipient, amount) && amount > 0
    ensures r.outcome != Paid ==> r.accounts == m
  {
    var p := Pay(m, sender, recipient, amount);
    if p.outcome == Paid && amount <= 0 then Payment(m, NonPositiveAmount) else p
  }

  /** With the positivity check, a payment keeps every balance non-negative and the
      total unchanged. */
  lemma PayCheckedKeepsSolvent(m: Accounts, sender: UserId, recipient: Option<UserId>, amount: int)
    requires Solvent(m)
    ensures Solvent(PayChecked(m, sender, recipient, amount).accounts)
    ensures Total(PayChecked(m, sender, recipient, amount).accounts) == Total(m)
  {
    PayConserves(m, sender, recipient, amount);
  }
}

=== FILE: wrappers.dfy ===
/** Optional values, used for command arguments that may be omitted. */
module Wrappers {

  /** A value that may be absent, like a command parameter defaulting to `None`. */
  datatype Option<+T> = None | Some(value: T)
}
